=== FILE: README.md ===
# zeta combinators in Dafny

A model of the combinator toolkit in `src/base.js`: the small library of
factories that take JavaScript functions and return new ones. It covers
application (`apply`, `argv`, `spread`, `method`), partial application
(`bind1st`, `bind2nd`, `bind`), composition (`compose`, `negate`, `collect`),
projection (`project`, `$1`..`$3`, `$N`, `select`, `member`, `size`),
traversal of sparse arrays (`for_`, `map`), constants (`value`, `true_`,
`false_`, `itself`, `not`, `list`) and the loop `while_`.

How JavaScript is represented:

- A function is a `Callable = (Value, seq<Value>) -> Value`. It takes the
  receiver (`this`) of the call as an explicit first argument and gets its
  positional arguments as a list. Every combinator passes its own receiver on
  to the functions it calls. The one exception is `method`, which
  substitutes a fixed receiver.
- `Values.Value` is the part of JavaScript's value space that the model
  lets through a call as data: `undefined`, `null`, booleans, integers,
  strings and arrays. Functions and plain objects are not `Value`s. An array
  is a `seq<Option<Value>>`, and a hole (an index that `i in arr` rejects) is
  a `None` slot. Truthiness is `Values.Truthy`. A missing argument reads as
  `undefined` (`Values.Arg`).
- `Sparse` holds the scan that `for_` and `map` share. It visits indices
  from 0 up to the length, skips holes and compacts: the k-th output belongs
  to the k-th present index.
- `for_` returns the trace of calls it makes (`Iteration.ForEach`). That
  trace is its only observable behaviour once callbacks are pure.
- `while_` threads the state its callbacks share as an explicit `S`, which
  `cond` and `f` may both change: `cond` returns its result together with
  the state it leaves. It runs on a budget of calls (`Control.While`).

`map` compacts its output. It writes each result to `rv[rv.length]`, so its
output is dense and holds one element per present input slot, where an
index-preserving `map` would keep the holes of its input. The model follows
the code (`Combinators.Map`, `Laws.MapCompacts`).

## Model

| member | source | states |
|---|---|---|
| Combinators.Apply | src/base.js:22-25 | `apply(f, args)` with receiver `c` calls `f` with `c` and exactly the elements of a dense `args`; with `args` undefined or null, `f` gets no arguments |
| Laws.ApplyArgv | src/base.js:22-30 | `apply(f, argv(...args))` is `f(...args)` with the same receiver: the argument list round-trips exactly |
| Laws.ApplyReadsHolesAsUndefined | src/base.js:22-25 | a hole in the array passed to `apply` becomes an `undefined` argument, and the list keeps the array's length |
| Values.ListFromArrayOf | src/base.js:29 | reading back the dense array `argv` builds gives the original values in order |
| Combinators.Argv | src/base.js:27-30 | `argv` returns a dense array: one present slot per argument, slot i holding argument i, so it reads back as its own argument list and its `length` is the number of arguments |
| Combinators.Itself | src/base.js:59-62 | `itself(v)` is `v`; on any call it is the first argument, `undefined` for an empty call |
| Laws.ItselfIsFirst | src/base.js:59-62 | `itself` agrees with `$1` on every call, the empty call (both `undefined`) included |
| Combinators.Const | src/base.js:132-138 | `value(v)` returns the captured `v` for every receiver and argument list |
| Combinators.True | src/base.js:140 | `true_` returns the boolean `true` on every call |
| Combinators.False | src/base.js:141 | `false_` returns the boolean `false` on every call |
| Combinators.Not | src/base.js:102-105 | `not(v, ...)` is a boolean, truthy exactly when its first argument `v` is falsy, whatever follows (as a `map` callback too); `not()` is `true` |
| Combinators.BindFirst | src/base.js:32-38 | `bind1st(f, lhs)(rhs, ...)` with receiver `c` is `f(c, [lhs, rhs])`; a missing `rhs` is `undefined` and extra arguments are dropped |
| Combinators.BindSecond | src/base.js:40-46 | `bind2nd(f, rhs)(lhs, ...)` with receiver `c` is `f(c, [lhs, rhs])`; a missing `lhs` is `undefined` |
| Laws.BindFirstIsBind | src/base.js:113-126 | `bind1st(f, lhs)` agrees with `bind(f, [value(lhs), $1])` on every call |
| Laws.BindSecondIsBind | src/base.js:113-126 | `bind2nd(f, rhs)` agrees with `bind(f, [$1, value(rhs)])` on every call |
| Combinators.Method | src/base.js:69-75 | `method(that, f)` calls `f` with receiver `that` whatever the caller's receiver, with the arguments unchanged |
| Laws.MethodIgnoresReceiver | src/base.js:69-75 | the result of `method(that, f)` does not depend on the caller's receiver, and it agrees with `f` when that receiver is `that` |
| Combinators.Compose | src/base.js:48-57 | `compose(f, g)` gives `g` the whole argument list, gives `f` only `g`'s result, and gives both the caller's receiver |
| Laws.ComposeAssociative | src/base.js:48-57 | `compose(compose(f, g), h)` and `compose(f, compose(g, h))` agree on every call |
| Laws.ComposeItself | src/base.js:48-62 | `compose(itself, g)` agrees with `g` on every call |
| Combinators.Collect | src/base.js:128 | `collect(f)` calls `f` with the whole argument list as one dense array |
| Combinators.Spread | src/base.js:130 | `spread(f)(a, ...)` is `apply(f, a)` with the caller's receiver: the first argument is read as `apply` reads it (holes as `undefined`, `null` as no arguments) and later arguments are ignored; `spread(f)([...vs])` is `f(...vs)`, and with no argument `f` gets none |
| Laws.CollectThenSpread | src/base.js:128-130 | `collect(spread(f))` agrees with `f` on every call |
| Laws.SpreadThenCollect | src/base.js:128-130 | `spread(collect(f))` agrees with `f` on every call whose argument is a dense array |
| Combinators.Negate | src/base.js:143 | `negate(p)` returns a boolean that is truthy exactly when `p`'s result on the same call is falsy |
| Laws.NegateTwice | src/base.js:143 | `negate(negate(p))` has the same truthiness as `p` |
| Combinators.MemberOf | src/base.js:64-67 | `member(arr, i)` is the element at a present index `i`, and `undefined` at a hole |
| Combinators.Size | src/base.js:77 | `size(a, ...)` is the length of the array or string `a`, whatever arguments follow (as a `map` callback too), and `undefined` for a number or a boolean |
| Laws.SizeOfArgv | src/base.js:27-30 | `size(argv(...args))` is the number of arguments |
| Combinators.Select | src/base.js:145-151 | `select(i)(a)` is `a[i]`; arguments after the first are ignored |
| Laws.SelectIsMember | src/base.js:64-67 | `select(i)(o, ...)` agrees with `member(o, i)` on every value `o` and key `i` |
| Laws.SelectReadsSlot | src/base.js:145-151 | `select(i)` on an array gives slot `i` when it is present, and `undefined` for a hole or an index out of range |
| Combinators.Project | src/base.js:153-159 | `project(i)` returns argument `i` of any call, or `undefined` when there is none; the other arguments are ignored |
| Combinators.First | src/base.js:161 | `$1` is the first argument, `undefined` for an empty call |
| Combinators.Second | src/base.js:163 | `$2` is the second argument, `undefined` with fewer than two |
| Combinators.Third | src/base.js:165 | `$3` is the third argument, `undefined` with fewer than three |
| Combinators.Last | src/base.js:167-170 | `$N` is the last argument whatever the arity, `undefined` for an empty call |
| Laws.LastIsProjectLast | src/base.js:153-170 | `$N` agrees with `project` at position `arguments.length - 1` |
| Combinators.List | src/base.js:179-182 | `list()` is an empty array |
| Laws.SizeOfList | src/base.js:179-182 | `size(list())` is 0 and `list()` has no slot for `for_` or `map` to visit |
| Sparse.PresentIndices | src/base.js:84-85 | every listed index is below the length and present |
| Sparse.PresentIndicesExact | src/base.js:84-85 | the scan lists every present index exactly once, in strictly ascending order |
| Sparse.MapWith | src/base.js:93-98 | the compacting scan has one output per present index, and output k comes from the k-th present index |
| Sparse.PresentCount | src/base.js:94-96 | the number of present indices equals the number of indices `i in arr` accepts |
| Combinators.Map | src/base.js:91-100 | `map(f, arr)` is dense; its length is the number of present slots, and element k is `f(arr[i], i, arr)` with the caller's receiver, where i is the k-th present index |
| Laws.MapCountsPresent | src/base.js:91-100 | the length of `map`'s result is the size of the set of present indices |
| Laws.MapDense | src/base.js:91-100 | on an array without holes, `map` keeps the length and each position |
| Laws.MapCompacts | src/base.js:96 | a hole is not reproduced: `map(f, [a, , b])` has two elements, and the second is `f(b, 2, arr)` |
| Laws.MapSquaresOfRange | tests/reference.js:40-48 | `map(bind2nd(pow, 2), [0, ..., n-1])` holds the squares in the same positions |
| Laws.MapSquares | tests/reference.js:40-48 | `map(bind2nd(pow, 2), [0, 1, 2, 3])` is `[0, 1, 4, 9]` |
| Iteration.ForEach | src/base.js:79-89 | `for_` calls `f(arr[i], i, arr)` once for each present index, in ascending order, never for a hole, always with the caller's receiver; its results are the ones `map(f, arr)` collects |
| Combinators.BoundArgs | src/base.js:117-123 | the argument list `bind` builds has one entry per present binder, in binder order; entry k is binder k's result on the whole original argument list, with the same receiver |
| Combinators.Bind | src/base.js:113-126 | `bind(f, binders)` calls `f` with the caller's receiver and the binders' results |
| Laws.BindProjections | src/base.js:113-126 | `bind(f, [project(0), project(2)])(a, b, x)` calls `f(a, x)` |
| Laws.BindSkipsHoles | src/base.js:113-126 | a hole among the binders is skipped, and the binders after it move up one position |
| Control.While | src/base.js:172-177 | when `while_` ends, `f` has run exactly as many times as `cond` was truthy before its first falsy result, each round being one `cond` call and one `f` call, and the final state includes the effect of the last, falsy `cond` call; when the budget runs out, `cond` was truthy in every round reached |
| Laws.WhileCallsUntilFirstFalsy | src/base.js:172-177 | if `cond` is first falsy in round n and the budget allows n calls, the loop ends after exactly n calls of `f`, in the state the falsy `cond` call leaves |
| Laws.WhileFuelIrrelevant | src/base.js:172-177 | a larger budget does not change a run that ended |
| Laws.WhileFalsyAtOnce | src/base.js:172-177 | when `cond` is falsy at once, `f` is never called and only `cond`'s own effect changes the state |
| Laws.WhileCountdown | src/base.js:172-177 | `while_(function () { return n--; }, g)` from 3 runs `g` three times and leaves `n` at -1 |

## Left out

- `push` (src/base.js:107-111) is left out. It wraps the host's mutating `Array.prototype.push`, and the model has no mutable arrays.
- Host failures are not modelled. Calling a non-callable, `apply` with a primitive array argument (a `TypeError` in the host), and `member`/`select` on `undefined` or `null` are examples. In the model `apply` then passes no arguments, and the lookup yields `undefined`.
- `member`, `select` and `size` look up only array and string indices and `length`. Lookup of any other property name yields `undefined`.
- Functions and plain objects are not `Value`s. A receiver, including `method`'s owner `that`, is one of the values above and never an object. A callable can never be the argument of another callable (`bind1st(f, g)`, `$1(g)`, `value(g)`), and an array of functions is traversed only through `Sparse.MapWith`, as `bind` does with its binders, not through `Combinators.Map`. No combinator inspects its receiver, so the laws about receivers do not depend on this restriction.
- Numbers are integers. Floating point, `NaN` and string-to-number coercion of keys are not represented.
- `spread` is defined in the source as `bind1st(bind1st, apply)`. Likewise the source defines `collect` as `bind2nd(compose, argv)` and `negate` as `bind1st(compose, not)`. `Spread` is modelled by the callable this definition produces. `apply` takes a function as its first argument, and a function is not a `Value` here. `Collect` and `Negate` are literally `Compose(f, Argv())` and `Compose(Not(), p)`.
- Control.While: `while_` need not terminate. The model runs it on a budget of `fuel` calls to `f`, and the call count is stated only for runs that end within the budget. Effects of `cond` and `f` on their shared state are modelled through the explicit state `S`. Effects on anything outside it, such as the receiver, are not.
- Combinators.Size: a string is a sequence of Unicode scalar values here, so `size` of a string counts characters, where JavaScript's `length` counts UTF-16 code units (`size("\u{1F600}")` is 1 in the model and 2 in JavaScript). Indexing a string likewise yields a whole character, never a lone surrogate.
- Combinators.MemberOf: its contract covers array slots only. Lengths are stated through `Size`, and string indexing is not stated.
- Effects of `for_`'s callback are outside the model. Callbacks are pure functions, so `for_` is described by the calls it makes.
- The test harness (`tests/runner-tests.js`) and the sample functions the reference tests use (`range`, `fib`, `find_if`, `every`, `some`, `reduce`, comparisons, `new_`, `Date`) are not part of this model. The one exception is an integer `pow` (`Laws.Pow`), used to state the squares example.

=== FILE: combinators.dfy ===
/**
 The combinator toolkit of `src/base.js`. A JavaScript function is a
 `Callable`: it is invoked with a receiver (the `this` of the call) and an
 argument list, and returns a value. Every combinator that does not say
 otherwise forwards the receiver it was itself invoked with. Arrays are
 immutable values in this model, so an array a callable captured cannot change
 after capture, where in JavaScript a later mutation would be visible.
 */
module Combinators {
  import opened Values
  import opened Sparse

  /** A function invoked with a receiver and a positional argument list. */
  type Callable = (Value, seq<Value>) -> Value

  // ----- Application -----

  /** `apply(f, args)`: `f.apply(this, args)`, the caller's receiver and the
      elements of the array `args` passed on as `f`'s arguments. */
  function Apply(c: Value, f: Callable, args: Value): (r: Value)
    ensures forall vs :: args == Arr(ArrayOf(vs)) ==> r == f(c, vs)
    ensures args == Undefined || args == Null ==> r == f(c, [])
  {
    ListFromArrayOfArgs(args);
    f(c, ListFromArrayLike(args))
  }

  /** A dense array built by `ArrayOf` reads back as the values it holds. */
  lemma ListFromArrayOfArgs(args: Value)
    ensures forall vs :: args == Arr(ArrayOf(vs)) ==> ListFromArrayLike(args) == vs
  {
    forall vs | args == Arr(ArrayOf(vs))
      ensures ListFromArrayLike(args) == vs
    {
      ListFromArrayOf(vs);
    }
  }

  /** `argv`: its own argument list, collected into a dense array. */
  function Argv(): (r: Callable)
    ensures forall c, args :: r(c, args).Arr? && |r(c, args).slots| == |args|
    ensures forall c, args, i :: 0 <= i < |args| ==> r(c, args).slots[i] == Some(args[i])
    ensures forall c, args :: ListFromArrayLike(r(c, args)) == args
    ensures forall c, args :: Member(r(c, args), Str("length")) == Num(|args|)
  {
    (c: Value, args: seq<Value>) => ListFromArrayOf(args); Arr(ArrayOf(args))
  }

  /** `itself`: the identity on its (first) argument. */
  function Itself(): (r: Callable)
    ensures forall c, v :: r(c, [v]) == v
    ensures forall c, args :: |args| >= 1 ==> r(c, args) == args[0]
    ensures forall c :: r(c, []) == Undefined
  {
    (c: Value, args: seq<Value>) => Arg(args, 0)
  }

  /** `value(v)`: a callable that ignores receiver and arguments and returns
      the captured `v`. */
  function Const(v: Value): (r: Callable)
    ensures forall c, args :: r(c, args) == v
  {
    (c: Value, args: seq<Value>) => v
  }

  /** `true_ = value(true)`: the boolean `true`, which is truthy. */
  function True(): (r: Callable)
    ensures forall c, args :: r(c, args) == Bool(true)
    ensures forall c, args :: Truthy(r(c, args))
  {
    Const(Bool(true))
  }

  /** `false_ = value(false)`: the boolean `false`, which is falsy. */
  function False(): (r: Callable)
    ensures forall c, args :: r(c, args) == Bool(false)
    ensures forall c, args :: !Truthy(r(c, args))
  {
    Const(Bool(false))
  }

  /** `not`: the boolean negation of its argument's truthiness. */
  function Not(): (r: Callable)
    ensures forall c, args :: r(c, args).Bool?
    ensures forall c, v :: Truthy(r(c, [v])) <==> !Truthy(v)
    ensures forall c, args :: |args| >= 1 ==> (Truthy(r(c, args)) <==> !Truthy(args[0]))
    ensures forall c :: r(c, []) == Bool(true)
  {
    (c: Value, args: seq<Value>) => Bool(!Truthy(Arg(args, 0)))
  }

  // ----- Partial application -----

  /** `bind1st(f, lhs)`: called with `rhs`, calls `f` with exactly the two
      arguments `lhs, rhs` and the caller's receiver. A missing `rhs` is
      `undefined`; further arguments are dropped. */
  function BindFirst(f: Callable, lhs: Value): (r: Callable)
    ensures forall c, args :: |args| >= 1 ==> r(c, args) == f(c, [lhs, args[0]])
    ensures forall c :: r(c, []) == f(c, [lhs, Undefined])
  {
    (c: Value, args: seq<Value>) =>
      if |args| >= 1 then f(c, [lhs, args[0]]) else f(c, [lhs, Undefined])
  }

  /** `bind2nd(f, rhs)`: called with `lhs`, calls `f` with exactly the two
      arguments `lhs, rhs` and the caller's receiver. */
  function BindSecond(f: Callable, rhs: Value): (r: Callable)
    ensures forall c, args :: |args| >= 1 ==> r(c, args) == f(c, [args[0], rhs])
    ensures forall c :: r(c, []) == f(c, [Undefined, rhs])
  {
    (c: Value, args: seq<Value>) =>
      if |args| >= 1 then f(c, [args[0], rhs]) else f(c, [Undefined, rhs])
  }

  /** `method(that, f)`: calls `f` with the fixed receiver `that` whatever
      receiver it is invoked with, passing its arguments on unchanged. */
  function Method(that: Value, f: Callable): (r: Callable)
    ensures forall c, args :: r(c, args) == f(that, args)
  {
    (c: Value, args: seq<Value>) => f(that, args)
  }

  // ----- Composition -----

  /** `compose(f, g)`: `g` receives the whole argument list, `f` receives
      `g`'s result as its only argument, and both get the caller's receiver. */
  function Compose(f: Callable, g: Callable): (r: Callable)
    ensures forall c, args :: r(c, args) == f(c, [g(c, args)])
  {
    (c: Value, args: seq<Value>) => f(c, [g(c, args)])
  }

  /** `collect = bind2nd(compose, argv)`: `f` receives the whole argument
      list as one array. */
  function Collect(f: Callable): (r: Callable)
    ensures forall c, args :: r(c, args) == f(c, [Arr(ArrayOf(args))])
  {
    Compose(f, Argv())
  }

  /** `spread = bind1st(bind1st, apply)`, that is `spread(f)` is
      `bind1st(apply, f)`: its first argument is an array whose elements
      become `f`'s arguments, read as `apply` reads it; every later argument
      is ignored. */
  function Spread(f: Callable): (r: Callable)
    ensures forall c, args :: |args| >= 1 ==> r(c, args) == Apply(c, f, args[0])
    ensures forall c, vs :: r(c, [Arr(ArrayOf(vs))]) == f(c, vs)
    ensures forall c :: r(c, []) == f(c, [])
  {
    (c: Value, args: seq<Value>) => Apply(c, f, Arg(args, 0))
  }

  /** `negate = bind1st(compose, not)`: the result is truthy exactly when
      the predicate's result is not. */
  function Negate(p: Callable): (r: Callable)
    ensures forall c, args :: r(c, args).Bool?
    ensures forall c, args :: Truthy(r(c, args)) <==> !Truthy(p(c, args))
  {
    Compose(Not(), p)
  }

  // ----- Projection -----

  /** `member` as a two-argument function: `o[i]`. */
  function MemberOf(): (r: Callable)
    ensures forall c, slots: seq<Option<Value>>, i: int :: 0 <= i < |slots| && slots[i].Some? ==>
      r(c, [Arr(slots), Num(i)]) == slots[i].value
    ensures forall c, slots: seq<Option<Value>>, i: int :: 0 <= i < |slots| && slots[i].None? ==>
      r(c, [Arr(slots), Num(i)]) == Undefined
  {
    (c: Value, args: seq<Value>) => Member(Arg(args, 0), Arg(args, 1))
  }

  /** `size = bind2nd(member, 'length')`. */
  function Size(): (r: Callable)
    ensures forall c, slots :: r(c, [Arr(slots)]) == Num(|slots|)
    ensures forall c, s :: r(c, [Str(s)]) == Num(|s|)
    ensures forall c, args: seq<Value> :: |args| >= 1 && args[0].Arr? ==> r(c, args) == Num(|args[0].slots|)
    ensures forall c, args: seq<Value> :: |args| >= 1 && args[0].Str? ==> r(c, args) == Num(|args[0].s|)
    ensures forall c, args: seq<Value> :: |args| >= 1 && (args[0].Num? || args[0].Bool?) ==> r(c, args) == Undefined
  {
    BindSecond(MemberOf(), Str("length"))
  }

  /** `select(i)`: called with `a`, returns `a[i]`. */
  function Select(i: Value): (r: Callable)
    ensures forall c, args :: |args| >= 1 ==> r(c, args) == Member(args[0], i)
  {
    (c: Value, args: seq<Value>) => Member(Arg(args, 0), i)
  }

  /** `project(i)`: the argument at position `i` of whatever call it gets,
      `undefined` when there is none; every other argument is ignored. */
  function Project(i: int): (r: Callable)
    ensures forall c, args :: 0 <= i < |args| ==> r(c, args) == args[i]
    ensures forall c, args :: !(0 <= i < |args|) ==> r(c, args) == Undefined
  {
    (c: Value, args: seq<Value>) => Arg(args, i)
  }

  /** `$1`. */
  function First(): (r: Callable)
    ensures forall c, args :: |args| >= 1 ==> r(c, args) == args[0]
    ensures forall c :: r(c, []) == Undefined
  {
    Project(0)
  }

  /** `$2`. */
  function Second(): (r: Callable)
    ensures forall c, args :: |args| >= 2 ==> r(c, args) == args[1]
    ensures forall c, args :: |args| < 2 ==> r(c, args) == Undefined
  {
    Project(1)
  }

  /** `$3`. */
  function Third(): (r: Callable)
    ensures forall c, args :: |args| >= 3 ==> r(c, args) == args[2]
    ensures forall c, args :: |args| < 3 ==> r(c, args) == Undefined
  {
    Project(2)
  }

  /** `$N`: `arguments[arguments.length - 1]`, the last argument whatever
      the arity; with no arguments the index is -1 and the result is
      `undefined`. */
  function Last(): (r: Callable)
    ensures forall c, args :: |args| >= 1 ==> r(c, args) == args[|args| - 1]
    ensures forall c :: r(c, []) == Undefined
  {
    (c: Value, args: seq<Value>) => Arg(args, |args| - 1)
  }

  /** `list`: a new empty array. */
  function List(): (r: Callable)
    ensures forall c, args :: r(c, args).Arr? && |r(c, args).slots| == 0
  {
    (c: Value, args: seq<Value>) => Arr([])
  }

  // ----- Sequence iteration -----

  /** The argument list `for_` and `map` call their callback with for the
      slot at index `i`: the element, its index and the array itself. */
  function SlotArgs(v: Value, i: nat, arr: seq<Option<Value>>): seq<Value>
  {
    [v, Num(i), Arr(arr)]
  }

  /** `map(f, arr)` invoked with receiver `c`. Each result is written to
      `rv[rv.length]`, so the output is dense: its k-th element is `f`'s
      result for the k-th present index, and holes leave no trace. */
  function Map(c: Value, f: Callable, arr: seq<Option<Value>>): (r: seq<Value>)
    ensures |r| == |PresentIndices(arr)|
    ensures forall k :: 0 <= k < |r| ==>
      r[k] == f(c, SlotArgs(arr[PresentIndices(arr)[k]].value, PresentIndices(arr)[k], arr))
  {
    MapWith(arr, (v: Value, i: nat) => f(c, SlotArgs(v, i, arr)))
  }

  /** The argument list `bind` hands to `f`: `map` over `binders` with the
      callback `bind2nd(apply, arguments)`, which ignores the index and the
      array and calls the binder with the receiver and the original list. */
  function BoundArgs(c: Value, binders: seq<Option<Callable>>, args: seq<Value>): (r: seq<Value>)
    ensures |r| == |PresentIndices(binders)|
    ensures forall k :: 0 <= k < |r| ==> r[k] == binders[PresentIndices(binders)[k]].value(c, args)
  {
    var arguments := Arr(ArrayOf(args));
    ListFromArrayOf(args);
    MapWith(binders, (b: Callable, i: nat) => Apply(c, b, arguments))
  }

  /** `bind(f, binders)`: called with receiver `c` and arguments `args`,
      calls `f` with receiver `c` and one argument per present binder, in
      binder order, the k-th being that binder's result on the whole `args`
      with the same receiver. Holes among the binders are skipped. */
  function Bind(f: Callable, binders: seq<Option<Callable>>): (r: Callable)
    ensures forall c, args :: r(c, args) == f(c, BoundArgs(c, binders, args))
  {
    (c: Value, args: seq<Value>) => f(c, BoundArgs(c, binders, args))
  }
}

=== FILE: control.dfy ===
/**
 `while_(cond, f)`: call `cond` and, while its result is truthy, call `f`.
 Both callbacks take no arguments and work through whatever state they
 close over; here that state is an explicit `S` that both `cond` and `f` may
 change, and both receive the caller's receiver. The loop need not end,
 so it runs on a budget of `fuel` calls to `f`.
 */
module Control {
  import opened Values

  /** How a bounded run of the loop ended: `cond` turned falsy after `calls`
      calls to `f`, or the budget ran out with `cond` still truthy. */
  datatype Outcome<S> = Done(state: S, calls: nat) | OutOfFuel(state: S)

  /** The state after `k` rounds of the loop starting from `s`, a round
      being one call to `cond` followed by one call to `f`. */
  function Iterate<S>(c: Value, cond: (Value, S) -> (Value, S), f: (Value, S) -> S, s: S, k: nat): S
    decreases k
  {
    if k == 0 then s else Iterate(c, cond, f, f(c, cond(c, s).1), k - 1)
  }

  /** `while_(cond, f)` invoked with receiver `c` in state `s`, allowing at
      most `fuel` calls to `f`. `cond` returns its result together with the
      state its own effects leave. When the loop ends, `f` was called exactly
      as many times as `cond` was truthy before its first falsy result (none
      when `cond` is falsy at once), and the final state carries the effects
      of that last, falsy call to `cond`; when the budget runs out, `cond` was
      truthy in every round reached. */
  function While<S>(c: Value, cond: (Value, S) -> (Value, S), f: (Value, S) -> S, s: S, fuel: nat): (r: Outcome<S>)
    ensures r.Done? ==> r.calls <= fuel
    ensures r.Done? ==> r.state == cond(c, Iterate(c, cond, f, s, r.calls)).1
    ensures r.Done? ==> forall k :: 0 <= k < r.calls ==> Truthy(cond(c, Iterate(c, cond, f, s, k)).0)
    ensures r.Done? ==> !Truthy(cond(c, Iterate(c, cond, f, s, r.calls)).0)
    ensures r.OutOfFuel? ==> r.state == cond(c, Iterate(c, cond, f, s, fuel)).1
    ensures r.OutOfFuel? ==> forall k :: 0 <= k <= fuel ==> Truthy(cond(c, Iterate(c, cond, f, s, k)).0)
    decreases fuel
  {
    var t := cond(c, s);
    if !Truthy(t.0) then Done(t.1, 0)
    else if fuel == 0 then OutOfFuel(t.1)
    else
      var rest := While(c, cond, f, f(c, t.1), fuel - 1);
      ShiftIterate(c, cond, f, s);
      match rest
      case Done(u, n) => Done(u, n + 1)
      case OutOfFuel(u) => OutOfFuel(u)
  }

  /** Running `k` more rounds after the first is running `k + 1` rounds. */
  lemma ShiftIterate<S>(c: Value, cond: (Value, S) -> (Value, S), f: (Value, S) -> S, s: S)
    ensures forall k: nat :: Iterate(c, cond, f, f(c, cond(c, s).1), k) == Iterate(c, cond, f, s, k + 1)
  {
  }
}

=== FILE: iteration.dfy ===
/**
 `for_` as a loop. Its callback's results are discarded and its effects are
 outside the model, so the observable outcome of a traversal is the list of
 calls it makes: the receiver and arguments of each, and what each returned.
 */
module Iteration {
  import opened Values
  import opened Sparse
  import opened Combinators

  /** One invocation of a callback. */
  datatype Call = Call(receiver: Value, args: seq<Value>, result: Value)

  /** The call `for_` makes for the present slot holding `v` at index `i`. */
  function Visit(c: Value, f: Callable, arr: seq<Option<Value>>): (Value, nat) -> Call
  {
    (v: Value, i: nat) => Call(c, SlotArgs(v, i, arr), f(c, SlotArgs(v, i, arr)))
  }

  /** `for_(arr, f)` invoked with receiver `c`, returning the calls it makes
      in the order it makes them: one per present index, ascending, none for
      a hole, each with the element, its index and the array, the caller's
      receiver forwarded. The results are those `map(f, arr)` collects. */
  method ForEach(c: Value, arr: seq<Option<Value>>, f: Callable) returns (trace: seq<Call>)
    ensures |trace| == |PresentIndices(arr)|
    ensures forall k :: 0 <= k < |trace| ==>
      trace[k].receiver == c &&
      trace[k].args == SlotArgs(arr[PresentIndices(arr)[k]].value, PresentIndices(arr)[k], arr)
    ensures forall k :: 0 <= k < |trace| ==> trace[k].result == f(c, trace[k].args)
    ensures forall k :: 0 <= k < |trace| ==> trace[k].result == Map(c, f, arr)[k]
  {
    ghost var g := Visit(c, f, arr);
    trace := [];
    var len := |arr|;
    for i := 0 to len
      invariant trace + MapFrom(arr, g, i) == MapFrom(arr, g, 0)
    {
      if arr[i].Some? {
        var args := SlotArgs(arr[i].value, i, arr);
        var call := Call(c, args, f(c, args));
        assert call == g(arr[i].value, i);
        assert MapFrom(arr, g, i) == [call] + MapFrom(arr, g, i + 1);
        assert (trace + [call]) + MapFrom(arr, g, i + 1) == trace + ([call] + MapFrom(arr, g, i + 1));
        trace := trace + [call];
      } else {
        assert MapFrom(arr, g, i) == MapFrom(arr, g, i + 1);
      }
    }
    VisitsAreMapCalls(c, f, arr, trace);
  }

  /** The traversal's calls, read off the compacting traversal: the k-th is
      made for the k-th present index, and returns `map`'s k-th element. */
  lemma VisitsAreMapCalls(c: Value, f: Callable, arr: seq<Option<Value>>, trace: seq<Call>)
    requires trace == MapFrom(arr, Visit(c, f, arr), 0)
    ensures |trace| == |PresentIndices(arr)|
    ensures forall k :: 0 <= k < |trace| ==>
      trace[k].receiver == c &&
      trace[k].args == SlotArgs(arr[PresentIndices(arr)[k]].value, PresentIndices(arr)[k], arr)
    ensures forall k :: 0 <= k < |trace| ==> trace[k].result == f(c, trace[k].args)
    ensures forall k :: 0 <= k < |trace| ==> trace[k].result == Map(c, f, arr)[k]
  {
    var P := PresentIndices(arr);
    var m := Map(c, f, arr);
    forall k | 0 <= k < |trace|
      ensures trace[k] == Call(c, SlotArgs(arr[P[k]].value, P[k], arr), m[k])
    {
      assert trace[k] == Visit(c, f, arr)(arr[P[k]].value, P[k]);
    }
  }
}

=== FILE: laws.dfy ===
/**
 Laws connecting the combinators with one another: round trips between
 collecting and spreading argument lists, the general binder agreeing with
 the one-argument binders, `map`'s compaction, and the loop's call count.
 */
module Laws {
  import opened Values
  import opened Sparse
  import opened Combinators
  import opened Control

  // ----- Application -----

  /** `apply(f, argv(...args))` is `f(...args)`: the list is passed through
      exactly, with the caller's receiver. */
  lemma ApplyArgv(c: Value, f: Callable, args: seq<Value>)
    ensures Apply(c, f, Argv()(c, args)) == f(c, args)
  {
  }

  /** A hole in the array given to `apply` arrives as an `undefined`
      argument: the argument list keeps the array's length. */
  lemma ApplyReadsHolesAsUndefined(c: Value, f: Callable, slots: seq<Option<Value>>)
    ensures Apply(c, f, Arr(slots)) ==
      f(c, seq(|slots|, i requires 0 <= i < |slots| =>
        if slots[i].Some? then slots[i].value else Undefined))
  {
    assert ListFromArrayLike(Arr(slots)) ==
      seq(|slots|, i requires 0 <= i < |slots| =>
        if slots[i].Some? then slots[i].value else Undefined);
  }

  /** Collecting the arguments and spreading them again changes nothing:
      `collect(spread(f))` behaves as `f` on every call. */
  lemma CollectThenSpread(c: Value, f: Callable, args: seq<Value>)
    ensures Collect(Spread(f))(c, args) == f(c, args)
  {
  }

  /** Conversely `spread(collect(f))` behaves as `f` on a call whose one
      argument is a dense array. */
  lemma SpreadThenCollect(c: Value, f: Callable, vs: seq<Value>)
    ensures Spread(Collect(f))(c, [Arr(ArrayOf(vs))]) == f(c, [Arr(ArrayOf(vs))])
  {
  }

  /** `method(that, f)` does not see its caller's receiver at all, and
      agrees with `f` when the caller's receiver is `that`. */
  lemma MethodIgnoresReceiver(that: Value, f: Callable, c1: Value, c2: Value, args: seq<Value>)
    ensures Method(that, f)(c1, args) == Method(that, f)(c2, args)
    ensures Method(that, f)(that, args) == f(that, args)
  {
  }

  // ----- Composition -----

  /** Composition is associative. */
  lemma ComposeAssociative(f: Callable, g: Callable, h: Callable, c: Value, args: seq<Value>)
    ensures Compose(Compose(f, g), h)(c, args) == Compose(f, Compose(g, h))(c, args)
  {
  }

  /** `itself` is a left unit of composition. */
  lemma ComposeItself(g: Callable, c: Value, args: seq<Value>)
    ensures Compose(Itself(), g)(c, args) == g(c, args)
  {
  }

  /** Negating twice gives back the predicate's truthiness. */
  lemma NegateTwice(p: Callable, c: Value, args: seq<Value>)
    ensures Truthy(Negate(Negate(p))(c, args)) <==> Truthy(p(c, args))
  {
  }

  // ----- Projection -----

  /** `itself` and `$1` agree on every call, the empty one included. */
  lemma ItselfIsFirst(c: Value, args: seq<Value>)
    ensures Itself()(c, args) == First()(c, args)
  {
  }

  /** `$N` is `project` at the last position of the call it gets. */
  lemma LastIsProjectLast(c: Value, args: seq<Value>)
    ensures Last()(c, args) == Project(|args| - 1)(c, args)
  {
  }

  /** `size` of the array `argv` builds is the number of arguments. */
  lemma SizeOfArgv(c: Value, args: seq<Value>)
    ensures Size()(c, [Argv()(c, args)]) == Num(|args|)
  {
  }

  /** `list()` is empty: its `size` is 0, and neither `for_` nor `map` has
      a slot of it to visit. */
  lemma SizeOfList(c: Value, f: Callable, args: seq<Value>)
    ensures Size()(c, [List()(c, args)]) == Num(0)
    ensures Map(c, f, List()(c, args).slots) == []
  {
  }

  /** `select(i)(o)` is `member(o, i)`: both read `o[i]`. */
  lemma SelectIsMember(c: Value, o: Value, i: Value, rest: seq<Value>)
    ensures Select(i)(c, [o] + rest) == MemberOf()(c, [o, i])
  {
  }

  /** `select(i)` reads slot `i` of an array, `undefined` for a hole or an
      index out of range. */
  lemma SelectReadsSlot(c: Value, slots: seq<Option<Value>>, i: int)
    ensures Select(Num(i))(c, [Arr(slots)]) ==
      if 0 <= i < |slots| && slots[i].Some? then slots[i].value else Undefined
  {
  }

  // ----- Partial application -----

  /** `bind1st(f, lhs)` is `bind(f, [value(lhs), $1])`. */
  lemma BindFirstIsBind(f: Callable, lhs: Value, c: Value, args: seq<Value>)
    ensures BindFirst(f, lhs)(c, args) == Bind(f, [Some(Const(lhs)), Some(First())])(c, args)
  {
    var binders: seq<Option<Callable>> := [Some(Const(lhs)), Some(First())];
    PresentFromDense(binders, 0);
    var bound := BoundArgs(c, binders, args);
    assert bound == [lhs, Arg(args, 0)];
  }

  /** `bind2nd(f, rhs)` is `bind(f, [$1, value(rhs)])`. */
  lemma BindSecondIsBind(f: Callable, rhs: Value, c: Value, args: seq<Value>)
    ensures BindSecond(f, rhs)(c, args) == Bind(f, [Some(First()), Some(Const(rhs))])(c, args)
  {
    var binders: seq<Option<Callable>> := [Some(First()), Some(Const(rhs))];
    PresentFromDense(binders, 0);
    var bound := BoundArgs(c, binders, args);
    assert bound == [Arg(args, 0), rhs];
  }

  /** `bind(f, [project(0), project(2)])` called with `(a, b, x)` calls
      `f(a, x)`. */
  lemma BindProjections(f: Callable, c: Value, a: Value, b: Value, x: Value)
    ensures Bind(f, [Some(Project(0)), Some(Project(2))])(c, [a, b, x]) == f(c, [a, x])
  {
    var binders: seq<Option<Callable>> := [Some(Project(0)), Some(Project(2))];
    PresentFromDense(binders, 0);
    assert BoundArgs(c, binders, [a, b, x]) == [a, x];
  }

  /** A hole among the binders is skipped: the binders after it move up. */
  lemma BindSkipsHoles(f: Callable, b0: Callable, b2: Callable, c: Value, args: seq<Value>)
    ensures Bind(f, [Some(b0), None, Some(b2)])(c, args) == f(c, [b0(c, args), b2(c, args)])
  {
    var binders: seq<Option<Callable>> := [Some(b0), None, Some(b2)];
    HoleInTheMiddle(binders);
    assert BoundArgs(c, binders, args) == [b0(c, args), b2(c, args)];
  }

  // ----- Sequence iteration -----

  /** On an array without holes `map` keeps length and positions: element
      `i` of the result is `f`'s result for slot `i`. */
  lemma MapDense(c: Value, f: Callable, arr: seq<Option<Value>>)
    requires forall j :: 0 <= j < |arr| ==> arr[j].Some?
    ensures |Map(c, f, arr)| == |arr|
    ensures forall i :: 0 <= i < |arr| ==> Map(c, f, arr)[i] == f(c, SlotArgs(arr[i].value, i, arr))
  {
    PresentFromDense(arr, 0);
    var m := Map(c, f, arr);
    var P := PresentIndices(arr);
    forall i | 0 <= i < |arr|
      ensures m[i] == f(c, SlotArgs(arr[i].value, i, arr))
    {
      assert P[i] == i;
    }
  }

  /** `map`'s result is exactly as long as the number of indices `i in arr`
      accepts. */
  lemma MapCountsPresent(c: Value, f: Callable, arr: seq<Option<Value>>)
    ensures |Map(c, f, arr)| == |set j | 0 <= j < |arr| && arr[j].Some?|
  {
    PresentCount(arr);
  }

  /** `map` compacts: a hole between two elements is not reproduced, and
      the element after it moves down one position while its callback still
      sees its original index. */
  lemma MapCompacts(c: Value, f: Callable, a: Value, b: Value)
    ensures Map(c, f, [Some(a), None, Some(b)]) ==
      [f(c, [a, Num(0), Arr([Some(a), None, Some(b)])]),
       f(c, [b, Num(2), Arr([Some(a), None, Some(b)])])]
  {
    var arr := [Some(a), None, Some(b)];
    HoleInTheMiddle(arr);
  }

  /** The present indices of a three-slot array with a hole in the middle. */
  lemma HoleInTheMiddle<T>(arr: seq<Option<T>>)
    requires |arr| == 3 && arr[0].Some? && arr[1].None? && arr[2].Some?
    ensures PresentIndices(arr) == [0, 2]
  {
    assert PresentFrom(arr, 3) == [];
    assert PresentFrom(arr, 2) == [2];
    assert PresentFrom(arr, 1) == [2];
    assert PresentFrom(arr, 0) == [0] + PresentFrom(arr, 1);
  }

  /** Squaring with `bind2nd(pow, 2)` over the dense array `[0, ..., n-1]`
      gives the squares in the same positions. */
  lemma MapSquaresOfRange(c: Value, arr: seq<Option<Value>>)
    requires forall i :: 0 <= i < |arr| ==> arr[i] == Some(Num(i))
    ensures |Map(c, BindSecond(Pow(), Num(2)), arr)| == |arr|
    ensures forall i :: 0 <= i < |arr| ==> Map(c, BindSecond(Pow(), Num(2)), arr)[i] == Num(i * i)
  {
    var square := BindSecond(Pow(), Num(2));
    MapDense(c, square, arr);
    forall i | 0 <= i < |arr|
      ensures Map(c, square, arr)[i] == Num(i * i)
    {
      SquareSlot(c, i, arr);
    }
  }

  /** The reference scenario: `map(bind2nd(pow, 2), [0, 1, 2, 3])` is
      `[0, 1, 4, 9]`. */
  lemma MapSquares(c: Value, arr: seq<Option<Value>>)
    requires arr == [Some(Num(0)), Some(Num(1)), Some(Num(2)), Some(Num(3))]
    ensures Map(c, BindSecond(Pow(), Num(2)), arr) == [Num(0), Num(1), Num(4), Num(9)]
  {
    assert forall i :: 0 <= i < |arr| ==> arr[i] == Some(Num(i)) by {
      assert arr[0] == Some(Num(0)) && arr[1] == Some(Num(1));
      assert arr[2] == Some(Num(2)) && arr[3] == Some(Num(3));
    }
    MapSquaresOfRange(c, arr);
    FirstFourSquares(Map(c, BindSecond(Pow(), Num(2)), arr));
  }

  /** The squares of 0, 1, 2 and 3. */
  lemma FirstFourSquares(m: seq<Value>)
    requires |m| == 4
    requires forall i :: 0 <= i < |m| ==> m[i] == Num(i * i)
    ensures m == [Num(0), Num(1), Num(4), Num(9)]
  {
    assert m[0] == Num(0) && m[1] == Num(1) && m[2] == Num(4) && m[3] == Num(9);
  }

  /** `bind2nd(pow, 2)` on the callback arguments of slot `i` holding `i`. */
  lemma SquareSlot(c: Value, i: nat, arr: seq<Option<Value>>)
    ensures BindSecond(Pow(), Num(2))(c, SlotArgs(Num(i), i, arr)) == Num(i * i)
  {
    assert BindSecond(Pow(), Num(2))(c, SlotArgs(Num(i), i, arr)) == Pow()(c, [Num(i), Num(2)]);
    assert Power(i, 1) == i;
  }

  /** The integer power the reference scenario uses; not part of the
      toolkit. */
  function Pow(): Callable
  {
    (c: Value, args: seq<Value>) =>
      if |args| >= 2 && args[0].Num? && args[1].Num? && args[1].n >= 0
      then Num(Power(args[0].n, args[1].n))
      else Undefined
  }

  function Power(b: int, e: nat): int
  {
    if e == 0 then 1 else b * Power(b, e - 1)
  }

  // ----- Control -----

  /** The number of calls to `f` is determined by `cond`'s results alone:
      if `cond` is truthy in the first `n` rounds and falsy in the next, and
      the budget allows `n` calls, the loop ends after exactly `n` calls, in
      the state the last call to `cond` leaves. */
  lemma WhileCallsUntilFirstFalsy<S>(c: Value, cond: (Value, S) -> (Value, S), f: (Value, S) -> S, s: S, fuel: nat, n: nat)
    requires n <= fuel
    requires forall k :: 0 <= k < n ==> Truthy(cond(c, Iterate(c, cond, f, s, k)).0)
    requires !Truthy(cond(c, Iterate(c, cond, f, s, n)).0)
    ensures While(c, cond, f, s, fuel) == Done(cond(c, Iterate(c, cond, f, s, n)).1, n)
  {
    var r := While(c, cond, f, s, fuel);
    if r.Done? {
      assert r.calls == n;
    }
  }

  /** A larger budget does not change a run that ended. */
  lemma WhileFuelIrrelevant<S>(c: Value, cond: (Value, S) -> (Value, S), f: (Value, S) -> S, s: S, fuel: nat, more: nat)
    requires fuel <= more
    requires While(c, cond, f, s, fuel).Done?
    ensures While(c, cond, f, s, more) == While(c, cond, f, s, fuel)
  {
    var r := While(c, cond, f, s, fuel);
    WhileCallsUntilFirstFalsy(c, cond, f, s, more, r.calls);
  }

  /** With `cond` falsy at once, `f` is never called, and only `cond`'s own
      effect changes the state. */
  lemma WhileFalsyAtOnce<S>(c: Value, cond: (Value, S) -> (Value, S), f: (Value, S) -> S, s: S, fuel: nat)
    requires !Truthy(cond(c, s).0)
    ensures While(c, cond, f, s, fuel) == Done(cond(c, s).1, 0)
  {
  }

  /** The countdown `while_(function () { return n--; }, g)` from `n = 3`,
      with a `g` that leaves `n` alone: `g` runs three times, and the final,
      falsy test still decrements, so the loop leaves `n` at -1. */
  lemma WhileCountdown(c: Value, g: (Value, int) -> int)
    requires forall m :: g(c, m) == m
    ensures While(c, (c': Value, n: int) => (Num(n), n - 1), g, 3, 10) == Done(-1, 3)
  {
    var cond := (c': Value, n: int) => (Num(n), n - 1);
    assert Iterate(c, cond, g, 3, 0) == 3;
    assert Iterate(c, cond, g, 3, 1) == 2;
    assert Iterate(c, cond, g, 3, 2) == 1;
    assert Iterate(c, cond, g, 3, 3) == 0;
    WhileCallsUntilFirstFalsy(c, cond, g, 3, 10, 3);
  }
}

=== FILE: sparse.dfy ===
/**
 Traversal of sparse arrays as `for_` and `map` perform it: indices are
 scanned from 0 up to the length, a hole is skipped, and every present slot
 is handled once. `MapWith` is the compacting traversal `map` builds its
 result with: the k-th output belongs to the k-th present index.
 */
module Sparse {
  import opened Values

  /** The present indices j with lo <= j < |arr|, in ascending order. */
  function PresentFrom<T>(arr: seq<Option<T>>, lo: nat): (r: seq<nat>)
    ensures forall k :: 0 <= k < |r| ==> lo <= r[k] < |arr| && arr[r[k]].Some?
    decreases |arr| - lo
  {
    if lo >= |arr| then []
    else if arr[lo].Some? then [lo] + PresentFrom(arr, lo + 1)
    else PresentFrom(arr, lo + 1)
  }

  /** The present indices of `arr`: the indices for which the source's
      `i in arr` test succeeds. */
  function PresentIndices<T>(arr: seq<Option<T>>): (r: seq<nat>)
    ensures forall k :: 0 <= k < |r| ==> r[k] < |arr| && arr[r[k]].Some?
  {
    PresentFrom(arr, 0)
  }

  /** Strictly increasing, so without repetitions. */
  ghost predicate Ascending(r: seq<nat>)
  {
    forall k, m :: 0 <= k < m < |r| ==> r[k] < r[m]
  }

  /** The scan from `lo` lists every present index from `lo` on, once each,
      in ascending order. */
  lemma {:induction false} PresentFromExact<T>(arr: seq<Option<T>>, lo: nat)
    ensures Ascending(PresentFrom(arr, lo))
    ensures forall j :: lo <= j < |arr| && arr[j].Some? ==> j in PresentFrom(arr, lo)
    decreases |arr| - lo
  {
    if lo < |arr| {
      PresentFromExact(arr, lo + 1);
      var rest := PresentFrom(arr, lo + 1);
      if arr[lo].Some? {
        var r := [lo] + rest;
        assert r == PresentFrom(arr, lo);
        forall k, m | 0 <= k < m < |r| ensures r[k] < r[m] {
          assert r[m] == rest[m - 1];
          if k > 0 { assert r[k] == rest[k - 1]; }
        }
        forall j | lo <= j < |arr| && arr[j].Some? ensures j in r {
          if j > lo { assert j in rest; }
        }
      }
    }
  }

  /** Every present index of `arr` exactly once, in ascending order. */
  lemma PresentIndicesExact<T>(arr: seq<Option<T>>)
    ensures Ascending(PresentIndices(arr))
    ensures forall j :: 0 <= j < |arr| && arr[j].Some? ==> j in PresentIndices(arr)
  {
    PresentFromExact(arr, 0);
  }

  /** The scan of `map` from index `lo` on: one output per present slot, in
      index order, appended at the end of what was already produced. */
  function MapFrom<T, R>(arr: seq<Option<T>>, g: (T, nat) -> R, lo: nat): (r: seq<R>)
    ensures |r| == |PresentFrom(arr, lo)|
    ensures forall k :: 0 <= k < |r| ==>
      r[k] == g(arr[PresentFrom(arr, lo)[k]].value, PresentFrom(arr, lo)[k])
    decreases |arr| - lo
  {
    if lo >= |arr| then []
    else if arr[lo].Some? then [g(arr[lo].value, lo)] + MapFrom(arr, g, lo + 1)
    else MapFrom(arr, g, lo + 1)
  }

  /** The compacted traversal of the whole array: its k-th element is `g`
      applied to the slot at the k-th present index, so the output is dense
      and as long as the number of present slots. */
  function MapWith<T, R>(arr: seq<Option<T>>, g: (T, nat) -> R): (r: seq<R>)
    ensures |r| == |PresentIndices(arr)|
    ensures forall k :: 0 <= k < |r| ==>
      r[k] == g(arr[PresentIndices(arr)[k]].value, PresentIndices(arr)[k])
  {
    MapFrom(arr, g, 0)
  }

  /** On an array without holes every index is present, in order. */
  lemma {:induction false} PresentFromDense<T>(arr: seq<Option<T>>, lo: nat)
    requires lo <= |arr|
    requires forall j :: 0 <= j < |arr| ==> arr[j].Some?
    ensures |PresentFrom(arr, lo)| == |arr| - lo
    ensures forall k :: 0 <= k < |arr| - lo ==> PresentFrom(arr, lo)[k] == lo + k
    decreases |arr| - lo
  {
    if lo < |arr| {
      PresentFromDense(arr, lo + 1);
      var r := PresentFrom(arr, lo);
      assert r == [lo] + PresentFrom(arr, lo + 1);
      forall k | 0 <= k < |arr| - lo
        ensures r[k] == lo + k
      {
        if k > 0 {
          assert r[k] == PresentFrom(arr, lo + 1)[k - 1];
        }
      }
    }
  }

  /** The set of values a sequence holds. */
  function Elements(r: seq<nat>): set<nat>
  {
    set x | x in r
  }

  /** The elements of an ascending sequence are as many as its length. */
  lemma {:induction false} AscendingCardinality(r: seq<nat>)
    requires Ascending(r)
    ensures |Elements(r)| == |r|
  {
    if r != [] {
      var tail := r[1..];
      assert Ascending(tail) by {
        forall k, m | 0 <= k < m < |tail| ensures tail[k] < tail[m] {
          assert tail[k] == r[k + 1] && tail[m] == r[m + 1];
        }
      }
      AscendingCardinality(tail);
      assert r[0] !in Elements(tail) by {
        forall k | 0 <= k < |tail| ensures tail[k] != r[0] {
          assert tail[k] == r[k + 1];
        }
      }
      assert Elements(r) == {r[0]} + Elements(tail) by {
        assert r == [r[0]] + tail;
      }
    }
  }

  /** The number of present indices is the number of indices `i in arr`
      accepts. */
  lemma PresentCount<T>(arr: seq<Option<T>>)
    ensures |PresentIndices(arr)| == |set j | 0 <= j < |arr| && arr[j].Some?|
  {
    var r := PresentIndices(arr);
    PresentIndicesExact(arr);
    AscendingCardinality(r);
    assert Elements(r) == (set j | 0 <= j < |arr| && arr[j].Some?);
  }
}

=== FILE: values.dfy ===
/**
 The slice of JavaScript's value space that the combinator toolkit observes:
 the `undefined` it produces for missing arguments and absent slots, the
 truthiness `!` reads, and arrays that may have holes.
 */
module Values {

  /** A slot of a sparse array: `None` when the index is absent (`!(i in arr)`). */
  datatype Option<+T> = None | Some(value: T)

  /** A JavaScript value. Numbers are integers and objects other than arrays
      are not represented. An array is a sequence of slots, so its `length`
      is the length of the sequence and a hole is a `None` slot. */
  datatype Value =
    | Undefined
    | Null
    | Bool(b: bool)
    | Num(n: int)
    | Str(s: string)
    | Arr(slots: seq<Option<Value>>)

  /** ToBoolean (section 9.2 of ECMAScript 5.1) restricted to these values. */
  predicate Truthy(v: Value)
  {
    match v
    case Undefined => false
    case Null => false
    case Bool(b) => b
    case Num(n) => n != 0
    case Str(s) => s != []
    case Arr(_) => true
  }

  /** `arguments[i]`: the i-th actual argument, `undefined` past the end or
      for a negative index. */
  function Arg(args: seq<Value>, i: int): Value
  {
    if 0 <= i < |args| then args[i] else Undefined
  }

  /** The dense array holding exactly the given values, in order. This is what
      `Array.prototype.slice` makes of an `arguments` object. */
  function ArrayOf(vs: seq<Value>): (a: seq<Option<Value>>)
    ensures |a| == |vs|
    ensures forall i :: 0 <= i < |vs| ==> a[i].Some? && a[i].value == vs[i]
  {
    seq(|vs|, i requires 0 <= i < |vs| => Some(vs[i]))
  }

  /** The argument list `Function.prototype.apply` builds from its second
      argument (section 15.3.4.3 of ECMAScript 5.1): one argument per index
      below the array's length, a hole read as `undefined`; `undefined` and
      `null` give no arguments. */
  function ListFromArrayLike(v: Value): (args: seq<Value>)
    ensures v.Arr? ==> |args| == |v.slots|
    ensures v.Arr? ==> forall i :: 0 <= i < |args| ==>
      args[i] == (if v.slots[i].Some? then v.slots[i].value else Undefined)
    ensures !v.Arr? ==> args == []
  {
    match v
    case Arr(slots) =>
      seq(|slots|, i requires 0 <= i < |slots| =>
        if slots[i].Some? then slots[i].value else Undefined)
    case _ => []
  }

  /** Reading back a dense array as an argument list gives the values it was
      built from. */
  lemma ListFromArrayOf(vs: seq<Value>)
    ensures ListFromArrayLike(Arr(ArrayOf(vs))) == vs
  {
    var args := ListFromArrayLike(Arr(ArrayOf(vs)));
    assert |args| == |vs|;
    assert forall i :: 0 <= i < |vs| ==> args[i] == vs[i];
  }

  /** `o[key]` restricted to what the toolkit uses: an index into an array or
      a string, and the `length` property. Every other lookup yields
      `undefined`. */
  function Member(o: Value, key: Value): Value
  {
    match o
    case Arr(slots) =>
      if key.Num? then
        if 0 <= key.n < |slots| && slots[key.n].Some? then slots[key.n].value else Undefined
      else if key == Str("length") then Num(|slots|)
      else Undefined
    case Str(s) =>
      if key.Num? then
        if 0 <= key.n < |s| then Str([s[key.n]]) else Undefined
      else if key == Str("length") then Num(|s|)
      else Undefined
    case _ => Undefined
  }
}
